=== FILE: README.md ===
# Browser desktop: window stacking, drag, icon dispatch and the shortcut backend

This project models the two small state machines at the centre of a
browser-based desktop environment, and proves properties of them in Dafny.

- **The desktop** (`script.js`). A fixed set of declared windows is stacked
  by a global counter that starts at 100 and is raised by `++windowZIndex`
  whenever a window is opened or focused. `activeWindows` lists the open
  windows. Each window has a taskbar icon whose id is derived from the
  window id. A window header can be dragged with the pointer. A
  double-click on a desktop icon opens the window named by the icon's
  label. The DOM is a map from window id to `{hidden, zIndex, top, left}`,
  plus a map of taskbar icons and the drag in progress. User input is a
  sequence of events, and every property is a statement about runs of
  those events.
- **The backend** (`server.js`). The store has a users table with unique
  usernames and a shortcuts table keyed by an AUTOINCREMENT id. Each
  shortcut row is owned by one user. The routes are `/register`,
  `/login`, `GET`/`POST /shortcuts` and `PUT`/`DELETE /shortcuts/:id`.
  The `authenticateToken` middleware guards the shortcut routes. Each
  route is a pure transition on the store that returns an HTTP status and
  body. bcrypt and JWT are functions supplied by the caller.

Modules: `Maybe` (optional values), `Text` (`includes`, and the first and
second fields of `split`), `Windows`, `Drag`, `Icons`, `Events`, `Auth`
and `Server`.

Points where the code behaves differently from what a reader of a
desktop's window manager might expect; the model follows the code as
written:

- Opening an undeclared window id dereferences `null` in the code; it is
  not a no-op. Every operation on a window therefore requires the id to be
  declared.
- `openWindow` does not compute a centred or restored position, and the
  end of a drag does not save the position anywhere.
- A drag shifts the window on each move by the pointer's change since the
  previous event. The code does not compute start position plus total
  displacement. `Drag.MovesTelescope` proves that the two agree.
- Pressing a window header raises the window twice. The header's own
  `onmousedown` calls `bringToFront`, and the press then bubbles to the
  window's `mousedown` listener, which calls it again. So the counter
  grows by 2 (`Events.Raises`).
- `closeWindow` hides the taskbar icon named by the window id's prefix. Two
  windows with the same prefix would share one icon.
- `/register` does not check the password length. A missing password
  makes bcrypt throw, which gives 500. A missing username fails the NOT
  NULL constraint and gets the same 400 "username exists" reply as a
  duplicate.

## Model

| member | source | states |
|---|---|---|
| Text.FirstField | script.js:22 | `split(sep)[0]`: the result holds no separator, is a prefix of the input, and ends where the input ends or at a separator |
| Text.FirstFieldUnique | script.js:22 | any separator-free prefix that stops at a separator or at the end is the first field, so the three properties above determine `split(sep)[0]` |
| Text.Contains | script.js:164-173 | `includes`: the empty string occurs in every label, a phrase occurs in any label it starts, and no phrase occurs in a shorter label |
| Text.SecondField | server.js:51 | `split(sep)[1]` is undefined exactly when the separator does not occur, and otherwise holds no separator |
| Text.SecondFieldOfJoin | server.js:51 | the second field of `a + sep + t + rest` is `t` when `a` and `t` are separator-free and `rest` is empty or starts at a separator |
| Windows.Initial | script.js:3-4 | the desktop at load time (counter 100, nothing active, all windows hidden, no inline z-index) satisfies the desktop invariant |
| Windows.TaskbarIconId | script.js:22 | the icon id is a stem followed by `-taskbar-icon`; the stem is a `-`-free prefix of the window id that ends at the id's first `-` or at its end |
| Windows.TaskbarIconOfPrefix | script.js:22 | window `p-rest`, with no `-` in `p`, shows icon `p-taskbar-icon`; a window id without `-` shows `id-taskbar-icon` |
| Windows.ChromeTaskbarIcon | script.js:22 | `chrome-window` shows `chrome-taskbar-icon` |
| Windows.SetIconHidden | script.js:22-25 | only the window's own taskbar icon changes, and only when the page has that icon |
| Windows.Without | script.js:43 | the filtered list holds exactly the other ids, is no longer than before, and stays free of repeats |
| Windows.WithoutCutsOne | script.js:43 | on a list without repeats, filtering out the id at position `i` is exactly `s[..i] + s[i+1..]`, so the other ids keep their order |
| Windows.WithoutAbsent | script.js:43 | filtering out an absent id leaves the list unchanged |
| Windows.BringToFront | script.js:46-49 | the counter rises by exactly 1 and the window takes the new value; on a valid desktop it is then strictly above every other window; nothing else changes |
| Windows.OpenWindow | script.js:15-31 | the window becomes visible with z = counter + 1 and is then the unique front window; its icon is revealed; the id is appended only if absent (re-opening leaves the list as it was); the list stays free of repeats; no other window changes |
| Windows.CloseWindow | script.js:33-44 | the window is hidden and leaves `activeWindows`; its icon is hidden; no window's z-index or offsets change, nor does the counter; no other window changes; validity is kept |
| Windows.CloseKeepsOrder | script.js:43 | closing removes exactly the entry for the window and keeps the other open windows in their order; closing a closed window leaves the list as it was |
| Drag.BeginDrag | script.js:105-118 | pressing the header raises the window by exactly one, gives it the new counter value (the front on a valid desktop) and records the pointer; offsets and visibility are unchanged |
| Drag.DragMove | script.js:120-133 | with a drag in progress, the window shifts by the pointer's change since the last recorded pointer, and the new pointer is recorded; with no drag, nothing changes; z-indices and the counter are untouched |
| Drag.EndDrag | script.js:135-139 | releasing ends the drag and changes no window |
| Drag.Moves | script.js:117-133 | a run of pointer moves keeps the set of windows, and a drag in progress still names a declared window |
| Drag.MovesTelescope | script.js:120-133 | over any non-empty run of moves, the window's total displacement is the final pointer minus the pointer recorded at the start; no other window, no z-index and not the counter change |
| Icons.Dispatch | script.js:161-176 | no window opens exactly when the label contains none of the five phrases; when phrase `i` is the first phrase (in table order) that the label contains, window `i` opens |
| Events.IconClicksNameDeclaredWindows | script.js:155-174 | on a page declaring the five windows of the start-up list, every icon double-click, whatever its label, names a declared window |
| Icons.DispatchOpensDeclared | script.js:155-174 | every window the icon handler can open is one of the five declared windows |
| Icons.DispatchExamples | script.js:164-169 | a label containing both `Documentos` and `Chrome` opens the document window; `Chrome` alone opens the browser |
| Events.Raises | script.js:103-110 | a header press runs `++windowZIndex` exactly twice (its own handler, then the window listener at script.js:180-182 it bubbles to) and is the only event that does; an event raises nothing exactly when it brings no window forward; no event raises more than twice |
| Events.Step | script.js:161-205 | each event keeps the desktop valid; raises the counter once per `++windowZIndex` it runs (twice for a header press); brings the window it raises to the unique front; and changes no z-index when it raises nothing |
| Events.Run | script.js:143-208 | after any run of events the desktop is valid: `activeWindows` has no repeats and lists exactly the visible windows, every visible window carries an inline z-index, and no two inline z-indices are equal |
| Events.LastRaisedIsFront | script.js:179-183 | after any run of events, the window most recently opened or focused holds the counter value, and every other window with an inline z-index (which includes every visible window) lies strictly below it |
| Events.CounterCountsRaises | script.js:4-48 | the counter only grows, by exactly the number of raises in the run, so no z-index value is ever handed out twice |
| Auth.BearerToken | server.js:50-53 | a missing header, a header without a space, or an empty second field gives no token; otherwise the token is non-empty and holds no space |
| Auth.BearerTokenOfShape | server.js:51 | for a header `a + " " + t + rest`, the token is `t` when `t` is non-empty and none otherwise (so `Bearer ` and `Bearer  x` give none) |
| Auth.BearerRoundTrip | server.js:51 | the header `Bearer <token>` yields the token back |
| Auth.Authenticate | server.js:49-60 | 401 exactly when there is no token; 403 exactly when verification rejects the token; otherwise the request proceeds as the decoded identity |
| Server.PostRegister | server.js:63-81 | a missing password gives 500; a missing or taken username gives 400 and changes nothing; otherwise 201 with a new id above every existing user id, which the users' AUTOINCREMENT counter then holds; one row added, shortcuts untouched, validity kept |
| Server.PostLogin | server.js:83-102 | an unknown username gives 400; a missing password gives 500; a rejected password gives 403; 200 exactly when the comparison accepts, with a token signed over exactly `{id, username}` of the matched user |
| Server.GetShortcuts | server.js:105-115 | 200 with exactly the rows whose owner is the caller, unaltered |
| Server.PostShortcut | server.js:118-131 | 201 with a fresh id above all earlier ids, which the shortcuts' AUTOINCREMENT counter then holds; one row added, owned by the caller; every existing row unchanged; a missing name gives 500 and changes nothing |
| Server.PutShortcut | server.js:133-149 | 404 exactly when no row matches both id and owner; 500 exactly when the row matches but no name is given; 200 whenever the row matches and a name is given; every non-200 outcome leaves the store unchanged; on 200 only the matched row is rewritten, and the users table and both id counters are untouched |
| Server.DeleteShortcut | server.js:151-165 | 404 exactly when no row matches both id and owner, and then the store is unchanged; otherwise only that row is removed, and the users table and both id counters are untouched |
| Server.Serve | server.js:104-165 | a shortcut route served as the authenticated user keeps the store valid |
| Server.EmptyStoreValid | server.js:22-41 | the freshly created database (no users, no shortcuts, both AUTOINCREMENT counters at 0) satisfies the store invariant that every request keeps |
| Server.Handle | server.js:62-165 | every request keeps the store valid: ids stay within the AUTOINCREMENT range and user ids stay distinct |
| Server.HandleActsAsCaller | server.js:57-58 | a shortcut request the middleware lets through is served as exactly the identity its token decodes to |
| Server.RefusedRequestsChangeNothing | server.js:49-56 | a shortcut request refused by the middleware is answered 401 or 403 and changes nothing |
| Server.OwnershipIsolation | server.js:104-165 | a shortcut request served as A leaves every row owned by someone else unchanged and adds no such row; a listing shows only A's rows; the users table is untouched |
| Server.OthersRowsAreInvisible | server.js:104-165 | the response to a shortcut request served as A, and A's rows afterwards, depend only on A's rows and the id counter, never on other users' rows |
| Server.LoginThenAuthenticate | server.js:49-102 | when verification accepts what signing produced, a login token sent back as `Bearer <token>` authenticates the request as exactly the logged-in user |
| Server.RegisterThenLogin | server.js:63-102 | registering a new name and then logging in with the same password yields a token for the new id; registering the same name again gives 400 and changes nothing |

## Left out

- The clock `updateTime`, and the editor's `formatText` and `saveDocument` (script.js:7-12, 70-94). They are DOM, `Date`, `execCommand`, Blob and download work with no state the desktop keeps.
- The Chrome search `alert`, the focus call in `openChromeWindow`, and the empty minimize and maximize branches (script.js:54, 186-202). They have no behaviour to model.
- Event-listener registration, element lookup and CSS rendering. `offsetTop` and `offsetLeft` are taken to read back what the last move wrote; margins and offset parents are outside the model.
- The repeated `makeWindowDraggable` call in `openWindow` (script.js:19). It installs a fresh closure with the same behaviour, so the single drag state covers it.
- The initial visibility and stylesheet z-index of the windows. They come from page markup that is not part of this model. `Windows.Initial` starts with every window hidden, and `None` stands for "no inline z-index yet". A hidden window that was never opened keeps its stylesheet z-index, so the front-window statements compare only inline z-indices; every visible window has one.
- Events.Handles: events on undeclared windows are excluded by precondition, because the code dereferences `null` for them.
- bcrypt hashing and comparison, and JWT signing and verification with the secret and the one-hour expiry. Comparison, signing and verification are supplied functions (`Server.Crypto`); the salted hash bcrypt produces at registration is an input of the request (`Server.Request.Register`'s `hashed` field). Cryptography and the clock cannot be verified here. `Server.LoginThenAuthenticate` assumes only that verification accepts what signing produced.
- SQLite plumbing: the connection, schema creation, error callbacks for I/O failures, body parsing, CORS, and `app.listen`. Only the deterministic constraint failures are modelled: NOT NULL on the shortcut name and the username, UNIQUE on the username, and bcrypt rejecting a missing password. Database I/O errors are left out. On the four shortcut routes they give 500. The register insert (server.js:71-73) answers every insert error with the same 400 as a taken username, and the login lookup (server.js:87-88) answers a lookup error with the same 400 as an unknown username.
- Column type affinity: positions are integers or absent, and the `:id` path parameter is an integer. Non-numeric text matches no row and so behaves like an id that does not exist.
- AUTOINCREMENT exhaustion at 2^63-1. Ids are unbounded integers.
- Events.LastRaisedIsFront: treats the z-index as an unbounded integer. Browsers clamp a CSS z-index at 2147483647 and the JavaScript counter stops being exact at 2^53, so after about 2^31 raises two windows would share the top z-index on the page; the model does not describe that.
- The text of 500 replies and of 401/403 replies. The model keeps their status and leaves their wording to the libraries.
- Behaviour with no code in these two files: minimize and restore, saved window positions and sizes, debounced saves of shortcut positions, the client-side session, and shortcut action variants.

=== FILE: auth.dfy ===
/** The bearer-token middleware `authenticateToken` (server.js:48-60). The
    token is the second space-separated field of the `Authorization`
    header; JWT verification (signature, secret and the one-hour expiry)
    is a function the caller supplies, since cryptography and the clock are
    outside the model. */
module Auth {
  import opened Maybe
  import Text

  /** The identity a token carries and a request acts as: the payload
      `{id, username}` the login route signs (server.js:93). */
  datatype Claims = Claims(id: int, username: string)

  /** The middleware's three outcomes: 401, 403, or the request goes on
      with `req.user` set. */
  datatype AuthOutcome = Unauthorized | Forbidden | Authorized(user: Claims)

  /** `authHeader && authHeader.split(' ')[1]` as the middleware tests it:
      None when the header is missing or empty, has no space, or has an
      empty second field (all falsy in JavaScript); otherwise the second
      field, which is non-empty and holds no space. */
  function BearerToken(header: Option<string>): (r: Option<string>)
    ensures r.Some? ==> r.value != [] && ' ' !in r.value
    ensures header.None? ==> r.None?
    ensures header.Some? && ' ' !in header.value ==> r.None?
  {
    match header
    case None => None
    case Some(h) =>
      match Text.SecondField(h, ' ')
      case None => None
      case Some(t) => if t == [] then None else Some(t)
  }

  /** Every header with a space has the shape `a + " " + t + rest` with no
      space in `a` or `t` and `rest` empty or starting at a space; its token
      is `t` when that is non-empty, and there is none otherwise (so
      `"Bearer "` and `"Bearer  x"` both give none). */
  lemma BearerTokenOfShape(a: string, t: string, rest: string)
    requires ' ' !in a && ' ' !in t
    requires rest == [] || rest[0] == ' '
    ensures BearerToken(Some(a + " " + t + rest)) == if t == [] then None else Some(t)
  {
    Text.SecondFieldOfJoin(a, ' ', t, rest);
  }

  /** The header the client sends, `Bearer <token>`, yields the token back
      whenever the token is non-empty and holds no space. */
  lemma BearerRoundTrip(token: string)
    requires token != [] && ' ' !in token
    ensures BearerToken(Some("Bearer " + token)) == Some(token)
  {
    assert "Bearer " + token == "Bearer" + " " + token + [];
    BearerTokenOfShape("Bearer", token, []);
  }

  /** `authenticateToken`: no token gives 401 (server.js:51-53), a token
      `verify` rejects gives 403 (server.js:55-56), and otherwise the
      request proceeds as the decoded identity (server.js:57-58). */
  function Authenticate(header: Option<string>, verify: string -> Option<Claims>): (r: AuthOutcome)
    ensures r == Unauthorized <==> BearerToken(header).None?
    ensures r == Forbidden <==> BearerToken(header).Some? && verify(BearerToken(header).value).None?
    ensures r.Authorized? ==> BearerToken(header).Some? && verify(BearerToken(header).value) == Some(r.user)
  {
    match BearerToken(header)
    case None => Unauthorized
    case Some(token) =>
      match verify(token)
      case None => Forbidden
      case Some(user) => Authorized(user)
  }

  /** The HTTP status of a refusal. */
  function DeniedStatus(o: AuthOutcome): int
  {
    if o == Unauthorized then 401 else 403
  }
}

=== FILE: drag.dfy ===
/** The drag closure `makeWindowDraggable` installs on a window header
    (script.js:97-140). Pressing the header raises the window and records
    the pointer; every pointer move shifts the window by the pointer's
    displacement since the previous event and records the new pointer;
    releasing unbinds the document handlers. Offsets are plain integers:
    the model takes `offsetTop`/`offsetLeft` to read back what the last
    move wrote to `style.top`/`style.left`. */
module Drag {
  import opened Maybe
  import opened Windows

  /** A pointer position, `clientX`/`clientY`. */
  datatype Point = Point(x: int, y: int)

  /** `dragMouseDown` (script.js:105-118): `bringToFront`, then the
      pointer is recorded in `pos3`/`pos4` and the document's move and
      release handlers are bound to this window's closure. */
  function BeginDrag(d: Desktop, id: WindowId, at: Point): (r: Desktop)
    requires id in d.windows
    ensures r.drag == Dragging(id, at.x, at.y)
    ensures r.counter == d.counter + 1
    ensures r.windows.Keys == d.windows.Keys
    ensures r.windows[id].zIndex == Some(r.counter)
    ensures r.windows[id].top == d.windows[id].top && r.windows[id].left == d.windows[id].left
    ensures r.windows[id].hidden == d.windows[id].hidden
    ensures forall o :: o in d.windows && o != id ==> r.windows[o] == d.windows[o]
    ensures r.active == d.active && r.taskbar == d.taskbar
    ensures Valid(d) ==> Valid(r) && IsFront(r, id)
  {
    BringToFront(d, id).(drag := Dragging(id, at.x, at.y))
  }

  /** `elementDrag` (script.js:120-133): with `pos1 = pos3 - clientX` and
      `pos2 = pos4 - clientY`, top becomes `offsetTop - pos2` and left
      `offsetLeft - pos1`, and the pointer is recorded. With no drag in
      progress the document has no move handler and nothing happens. */
  function DragMove(d: Desktop, at: Point): (r: Desktop)
    requires d.drag.Dragging? ==> d.drag.id in d.windows
    ensures d.drag.Idle? ==> r == d
    ensures d.drag.Dragging? ==>
      var id := d.drag.id;
      && r.drag == Dragging(id, at.x, at.y)
      && r.windows.Keys == d.windows.Keys
      && r.windows[id].top - d.windows[id].top == at.y - d.drag.lastY
      && r.windows[id].left - d.windows[id].left == at.x - d.drag.lastX
      && r.windows[id].zIndex == d.windows[id].zIndex
      && r.windows[id].hidden == d.windows[id].hidden
      && (forall o :: o in d.windows && o != id ==> r.windows[o] == d.windows[o])
    ensures r.counter == d.counter && r.active == d.active && r.taskbar == d.taskbar
    ensures Valid(d) ==> Valid(r)
  {
    match d.drag
    case Idle => d
    case Dragging(id, pos3, pos4) =>
      var pos1 := pos3 - at.x;
      var pos2 := pos4 - at.y;
      var w := d.windows[id];
      d.(windows := d.windows[id := w.(top := w.top - pos2, left := w.left - pos1)],
         drag := Dragging(id, at.x, at.y))
  }

  /** `closeDragElement` (script.js:135-139): the document handlers are
      unbound; no window changes. */
  function EndDrag(d: Desktop): (r: Desktop)
    ensures r.drag == Idle
    ensures r.windows == d.windows && r.counter == d.counter
    ensures r.active == d.active && r.taskbar == d.taskbar
    ensures Valid(d) ==> Valid(r)
  {
    d.(drag := Idle)
  }

  /** A run of pointer moves, in order. */
  function Moves(d: Desktop, pts: seq<Point>): (r: Desktop)
    requires d.drag.Dragging? ==> d.drag.id in d.windows
    ensures r.windows.Keys == d.windows.Keys
    ensures r.drag.Dragging? ==> r.drag.id in r.windows
    decreases |pts|
  {
    if |pts| == 0 then d else Moves(DragMove(d, pts[0]), pts[1..])
  }

  /** Drag displacement telescopes: after any non-empty run of moves the
      dragged window has moved by exactly the last pointer position minus
      the one recorded when the drag began (or at the previous move), the
      last pointer is recorded, and no other window, no z-index and not
      the counter changed. */
  lemma {:induction false} MovesTelescope(d: Desktop, pts: seq<Point>)
    requires d.drag.Dragging? && d.drag.id in d.windows && |pts| > 0
    ensures var r := Moves(d, pts); var id := d.drag.id; var last := pts[|pts| - 1];
      && r.drag == Dragging(id, last.x, last.y)
      && r.windows[id].top == d.windows[id].top + (last.y - d.drag.lastY)
      && r.windows[id].left == d.windows[id].left + (last.x - d.drag.lastX)
      && r.windows[id].zIndex == d.windows[id].zIndex
      && r.windows[id].hidden == d.windows[id].hidden
      && (forall o :: o in d.windows && o != id ==> r.windows[o] == d.windows[o])
      && r.counter == d.counter
    decreases |pts|
  {
    var d1 := DragMove(d, pts[0]);
    if |pts| > 1 {
      MovesTelescope(d1, pts[1..]);
      assert pts[1..][|pts[1..]| - 1] == pts[|pts| - 1];
    } else {
      assert Moves(d1, pts[1..]) == d1;
    }
  }
}

=== FILE: events.dfy ===
/** The desktop as a sequence of user events, wired the way the
    `DOMContentLoaded` handler wires them (script.js:143-208): icon
    double-clicks, presses on a window or on its header, pointer moves and
    releases, and the close button. Every property of the window table is
    then a statement about runs of these events. */
module Events {
  import opened Maybe
  import opened Windows
  import Drag
  import Icons

  datatype Event =
    | IconDoubleClick(caption: string)
    | WindowPress(id: WindowId)
    | HeaderPress(id: WindowId, at: Drag.Point)
    | PointerMove(at: Drag.Point)
    | PointerRelease
    | CloseButton(id: WindowId)

  /** The event names only declared windows. The page only wires handlers
      to declared windows; an undeclared id would dereference `null`
      (script.js:16-17), so it is excluded rather than given a meaning. */
  predicate Handles(keys: set<WindowId>, e: Event)
  {
    match e
    case IconDoubleClick(caption) =>
      Icons.Dispatch(caption).Some? ==> Icons.Dispatch(caption).value in keys
    case WindowPress(id) => id in keys
    case HeaderPress(id, _) => id in keys
    case CloseButton(id) => id in keys
    case PointerMove(_) => true
    case PointerRelease => true
  }

  /** The window an event brings to the front, if any. */
  function Raised(e: Event): Option<WindowId>
  {
    match e
    case IconDoubleClick(caption) => Icons.Dispatch(caption)
    case WindowPress(id) => Some(id)
    case HeaderPress(id, _) => Some(id)
    case _ => None
  }

  /** How many times an event runs `++windowZIndex`. A header press runs it
      twice: the header's own `onmousedown` raises the window and starts
      the drag, and the press then bubbles to the window's `mousedown`
      listener, which raises it again. */
  function Raises(e: Event): (r: nat)
    ensures r <= 2
    ensures r == 2 <==> e.HeaderPress?
    ensures r == 0 <==> Raised(e).None?
  {
    match e
    case HeaderPress(_, _) => 2
    case _ => if Raised(e).Some? then 1 else 0
  }

  /** One event. Double-click: `openWindow` on the dispatched window
      (script.js:162-175; `openChromeWindow` and friends reduce to it).
      Window press: `bringToFront` (script.js:180-182). Header press: the
      drag starts, then the window press listener fires. Pointer move and
      release: the drag closure. Close button: `closeWindow`
      (script.js:203-205). */
  function Step(d: Desktop, e: Event): (r: Desktop)
    requires Valid(d) && Handles(d.windows.Keys, e)
    ensures Valid(r)
    ensures r.windows.Keys == d.windows.Keys
    ensures r.counter == d.counter + Raises(e)
    ensures Raised(e).Some? ==> IsFront(r, Raised(e).value)
    ensures Raised(e).None? ==>
      forall id :: id in d.windows ==> r.windows[id].zIndex == d.windows[id].zIndex
  {
    match e
    case IconDoubleClick(caption) =>
      (match Icons.Dispatch(caption)
       case Some(id) => OpenWindow(d, id)
       case None => d)
    case WindowPress(id) => BringToFront(d, id)
    case HeaderPress(id, at) => BringToFront(Drag.BeginDrag(d, id, at), id)
    case PointerMove(at) => Drag.DragMove(d, at)
    case PointerRelease => Drag.EndDrag(d)
    case CloseButton(id) => CloseWindow(d, id)
  }

  predicate HandlesAll(keys: set<WindowId>, evs: seq<Event>)
  {
    forall i :: 0 <= i < |evs| ==> Handles(keys, evs[i])
  }

  /** The desktop after the events `evs`, in order. Every run keeps the
      desktop valid: no window id is listed twice in `activeWindows` (part
      of `Valid`, restated for readers), the list holds exactly the
      visible windows, every visible window carries an inline z-index, and
      no two inline z-indices are equal. */
  function Run(d: Desktop, evs: seq<Event>): (r: Desktop)
    requires Valid(d) && HandlesAll(d.windows.Keys, evs)
    ensures Valid(r) && NoDuplicates(r.active)
    ensures r.windows.Keys == d.windows.Keys
    ensures r.counter >= d.counter
    decreases |evs|
  {
    if |evs| == 0 then d
    else
      var prefix := evs[..|evs| - 1];
      assert HandlesAll(d.windows.Keys, prefix) by {
        forall i | 0 <= i < |prefix| ensures Handles(d.windows.Keys, prefix[i]) {
          assert prefix[i] == evs[i];
        }
      }
      Step(Run(d, prefix), evs[|evs| - 1])
  }

  /** The window raised last in `evs`, if any event raised one. */
  function LastRaised(evs: seq<Event>): Option<WindowId>
    decreases |evs|
  {
    if |evs| == 0 then None
    else if Raised(evs[|evs| - 1]).Some? then Raised(evs[|evs| - 1])
    else LastRaised(evs[..|evs| - 1])
  }

  /** The total number of `++windowZIndex` runs in `evs`. */
  function TotalRaises(evs: seq<Event>): nat
    decreases |evs|
  {
    if |evs| == 0 then 0 else TotalRaises(evs[..|evs| - 1]) + Raises(evs[|evs| - 1])
  }

  /** After any run of events, the window most recently opened or focused
      holds the counter's value, and every other window with an inline
      z-index lies strictly below it: the front window is unique. */
  lemma {:induction false} LastRaisedIsFront(d: Desktop, evs: seq<Event>, w: WindowId)
    requires Valid(d) && HandlesAll(d.windows.Keys, evs)
    requires LastRaised(evs) == Some(w)
    ensures IsFront(Run(d, evs), w)
    decreases |evs|
  {
    var prefix := evs[..|evs| - 1];
    var e := evs[|evs| - 1];
    assert HandlesAll(d.windows.Keys, prefix) by {
      forall i | 0 <= i < |prefix| ensures Handles(d.windows.Keys, prefix[i]) {
        assert prefix[i] == evs[i];
      }
    }
    var before := Run(d, prefix);
    assert Run(d, evs) == Step(before, e);
    if Raised(e).None? {
      LastRaisedIsFront(d, prefix, w);
      assert before.counter == Step(before, e).counter;
    } else {
      assert Raised(e) == Some(w);
    }
  }

  /** The counter only moves by `++windowZIndex`: after any run it has grown
      by exactly the number of raises, so every z-index handed out is new. */
  lemma {:induction false} CounterCountsRaises(d: Desktop, evs: seq<Event>)
    requires Valid(d) && HandlesAll(d.windows.Keys, evs)
    ensures Run(d, evs).counter == d.counter + TotalRaises(evs)
    decreases |evs|
  {
    if |evs| > 0 {
      var prefix := evs[..|evs| - 1];
      assert HandlesAll(d.windows.Keys, prefix) by {
        forall i | 0 <= i < |prefix| ensures Handles(d.windows.Keys, prefix[i]) {
          assert prefix[i] == evs[i];
        }
      }
      CounterCountsRaises(d, prefix);
    }
  }

  /** On a page that declares the five windows of script.js:155, every
      icon double-click names a declared window, whatever the label. */
  lemma IconClicksNameDeclaredWindows(placement: map<WindowId, (int, int)>, icons: set<string>, caption: string)
    requires forall i :: 0 <= i < |DeclaredWindows| ==> DeclaredWindows[i] in placement
    ensures Handles(Initial(placement, icons).windows.Keys, IconDoubleClick(caption))
  {
    Icons.DispatchOpensDeclared(caption);
  }
}

=== FILE: icons.dfy ===
/** The desktop-icon double-click handler (script.js:161-176): the icon's
    label text is tested against five fixed phrases in order, and the first
    phrase the label contains decides which window opens. */
module Icons {
  import opened Maybe
  import Text
  import Windows

  /** The phrase table in the order the handler tests it, each with the
      window it opens. */
  const IconRules: seq<(string, Windows.WindowId)> := [
    ("Documentos", "word-window"),
    ("Este Computador", "explorer-window"),
    ("Chrome", "chrome-window"),
    ("VS Code", "vscode-window"),
    ("Spotify", "spotify-window")
  ]

  /** Rule `i` matches `caption` and no earlier rule does. */
  predicate FirstMatchAt(caption: string, i: int)
    requires 0 <= i < |IconRules|
  {
    && Text.Contains(caption, IconRules[i].0)
    && forall j :: 0 <= j < i ==> !Text.Contains(caption, IconRules[j].0)
  }

  /** The window a double-click opens on an icon whose label text is
      `caption`, as the `if`/`else if` chain decides it; `None` when no
      phrase occurs in the label (the Trash and Folder icons, say). The ensures state the
      first-match-wins reading of the phrase table. */
  function Dispatch(caption: string): (r: Option<Windows.WindowId>)
    ensures r.None? <==> forall i :: 0 <= i < |IconRules| ==> !Text.Contains(caption, IconRules[i].0)
    ensures forall i :: 0 <= i < |IconRules| && FirstMatchAt(caption, i) ==> r == Some(IconRules[i].1)
  {
    assert IconRules[0].0 == "Documentos" && IconRules[1].0 == "Este Computador";
    assert IconRules[2].0 == "Chrome" && IconRules[3].0 == "VS Code" && IconRules[4].0 == "Spotify";
    if Text.Contains(caption, "Documentos") then Some("word-window")
    else if Text.Contains(caption, "Este Computador") then Some("explorer-window")
    else if Text.Contains(caption, "Chrome") then Some("chrome-window")
    else if Text.Contains(caption, "VS Code") then Some("vscode-window")
    else if Text.Contains(caption, "Spotify") then Some("spotify-window")
    else None
  }

  /** Every window the handler can open is one of the declared windows. */
  lemma DispatchOpensDeclared(caption: string)
    ensures Dispatch(caption).Some? ==> Dispatch(caption).value in Windows.DeclaredWindows
  {
  }

  /** Order matters: a caption holding both `Documentos` and `Chrome` opens
      the document window, and a plain `Chrome` caption opens the browser. */
  lemma DispatchExamples()
    ensures Dispatch("Documentos Chrome") == Some("word-window")
    ensures Dispatch("Chrome") == Some("chrome-window")
  {
    assert Text.OccursAt("Documentos Chrome", "Documentos", 0);
    assert Text.OccursAt("Chrome", "Chrome", 0);
  }
}

=== FILE: maybe.dfy ===
/** The optional value used throughout the model for JavaScript's
    `undefined`/`null` and for lookups that may find nothing. */
module Maybe {

  datatype Option<+T> = None | Some(value: T)
}

=== FILE: server.dfy ===
/** The backend's route handlers (server.js:20-165) as transitions on an
    abstract store: a users table whose usernames are unique and a
    shortcuts table keyed by an auto-increment id, each row owned by one
    user. SQLite is reduced to the statements the routes run; bcrypt and
    JWT are functions the caller supplies. */
module Server {
  import opened Maybe
  import opened Auth

  /** A users row: the AUTOINCREMENT id and the bcrypt hash. The table is
      keyed by username, which the schema declares UNIQUE (server.js:25). */
  datatype UserRow = UserRow(id: int, passwordHash: string)

  /** A shortcuts row (server.js:31-41): `owner` is `user_id`; `name` is
      NOT NULL, the other columns may hold NULL. */
  datatype Shortcut = Shortcut(owner: int, name: string, icon: Option<string>, x: Option<int>, y: Option<int>)

  /** Both tables and, per table, the largest id AUTOINCREMENT has handed
      out (SQLite's `sqlite_sequence`). */
  datatype Store = Store(
    users: map<string, UserRow>,
    lastUserId: int,
    shortcuts: map<int, Shortcut>,
    lastShortcutId: int)

  /** The body of a shortcut request: `{name, icon, position_x,
      position_y}`, each possibly absent. */
  datatype Fields = Fields(name: Option<string>, icon: Option<string>, x: Option<int>, y: Option<int>)

  /** bcrypt's comparison, JWT signing, and JWT verification with the
      server secret and the current time folded in. */
  datatype Crypto = Crypto(
    compare: (string, string) -> bool,
    sign: Claims -> string,
    verify: string -> Option<Claims>)

  datatype Body =
    | NoBody
    | Error(message: string)
    | InternalError
    | NewId(id: int)
    | Token(token: string)
    | Rows(rows: map<int, Shortcut>)
    | Message(message: string)

  datatype Response = Response(status: int, body: Body)

  /** A request: the route with its body fields, the `Authorization` header
      and the `:id` path parameter. For registration, `hashed` is what
      bcrypt produced for this request's password (it is salted, so it is
      an input rather than a function of the password). */
  datatype Request =
    | Register(username: Option<string>, password: Option<string>, hashed: string)
    | Login(username: Option<string>, password: Option<string>)
    | List(authorization: Option<string>)
    | Create(authorization: Option<string>, fields: Fields)
    | Update(authorization: Option<string>, rowId: int, fields: Fields)
    | Remove(authorization: Option<string>, rowId: int)

  const UsernameTaken := "Nome de usuário já existe"
  const UserNotFound := "Usuário não encontrado"
  const WrongPassword := "Senha incorreta"
  const ShortcutNotFound := "Atalho não encontrado"
  const ShortcutUpdated := "Atalho atualizado com sucesso"
  const ShortcutRemoved := "Atalho removido com sucesso"

  /** The empty database the server creates on first start. */
  const EmptyStore := Store(map[], 0, map[], 0)

  /** Ids come from AUTOINCREMENT: every user id and shortcut id lies in
      1..last, and no two users share an id. */
  predicate Valid(s: Store)
  {
    && s.lastUserId >= 0 && s.lastShortcutId >= 0
    && (forall u :: u in s.users ==> 1 <= s.users[u].id <= s.lastUserId)
    && (forall u, v :: u in s.users && v in s.users && u != v ==> s.users[u].id != s.users[v].id)
    && (forall k :: k in s.shortcuts ==> 1 <= k <= s.lastShortcutId)
  }

  /** The database as first created satisfies the invariant every request
      keeps, so every store the server reaches satisfies it. */
  lemma EmptyStoreValid()
    ensures Valid(EmptyStore)
  {
  }

  /** The rows owned by user `uid`. */
  function Owned(s: Store, uid: int): (r: map<int, Shortcut>)
    ensures forall k :: k in r <==> k in s.shortcuts && s.shortcuts[k].owner == uid
    ensures forall k :: k in r ==> r[k] == s.shortcuts[k]
  {
    map k | k in s.shortcuts && s.shortcuts[k].owner == uid :: s.shortcuts[k]
  }

  /** The rows owned by anybody but `uid`. */
  function Others(s: Store, uid: int): (r: map<int, Shortcut>)
    ensures forall k :: k in r <==> k in s.shortcuts && s.shortcuts[k].owner != uid
    ensures forall k :: k in r ==> r[k] == s.shortcuts[k]
  {
    map k | k in s.shortcuts && s.shortcuts[k].owner != uid :: s.shortcuts[k]
  }

  /** `POST /register` (server.js:63-81). The password is hashed first; a
      missing password makes bcrypt throw, giving 500. Then the insert: a
      missing username (NOT NULL) or one already taken (UNIQUE) fails and
      gives 400, and otherwise the user gets the next id and 201 returns
      it. Every failure leaves the store as it was. */
  function PostRegister(s: Store, username: Option<string>, password: Option<string>, hashed: string): (r: (Response, Store))
    ensures password.None? ==> r == (Response(500, InternalError), s)
    ensures password.Some? && (username.None? || username.value in s.users) ==>
      r == (Response(400, Error(UsernameTaken)), s)
    ensures r.0.status == 201 <==> password.Some? && username.Some? && username.value !in s.users
    ensures r.0.status == 201 ==>
      var id := s.lastUserId + 1;
      && r.0.body == NewId(id)
      && r.1.users == s.users[username.value := UserRow(id, hashed)]
      && r.1.lastUserId == id
      && r.1.shortcuts == s.shortcuts && r.1.lastShortcutId == s.lastShortcutId
      && (Valid(s) ==> forall u :: u in s.users ==> s.users[u].id < id)
    ensures Valid(s) ==> Valid(r.1)
  {
    if password.None? then (Response(500, InternalError), s)
    else if username.None? || username.value in s.users then (Response(400, Error(UsernameTaken)), s)
    else
      var id := s.lastUserId + 1;
      (Response(201, NewId(id)),
       s.(users := s.users[username.value := UserRow(id, hashed)], lastUserId := id))
  }

  /** `POST /login` (server.js:83-102): an unknown (or missing) username
      gives 400; a missing password makes bcrypt reject, giving 500; a
      password the hash comparison refuses gives 403; otherwise 200 with a
      token signed over exactly the matched user's `{id, username}`. The
      store is only read. */
  function PostLogin(s: Store, username: Option<string>, password: Option<string>, c: Crypto): (r: Response)
    ensures username.None? || username.value !in s.users ==> r == Response(400, Error(UserNotFound))
    ensures username.Some? && username.value in s.users && password.None? ==> r == Response(500, InternalError)
    ensures r.status == 200 <==>
      username.Some? && username.value in s.users && password.Some? &&
      c.compare(password.value, s.users[username.value].passwordHash)
    ensures r.status == 200 ==>
      r.body == Token(c.sign(Claims(s.users[username.value].id, username.value)))
    ensures r.status == 403 <==>
      username.Some? && username.value in s.users && password.Some? &&
      !c.compare(password.value, s.users[username.value].passwordHash)
  {
    if username.None? || username.value !in s.users then Response(400, Error(UserNotFound))
    else
      var user := s.users[username.value];
      if password.None? then Response(500, InternalError)
      else if c.compare(password.value, user.passwordHash) then
        Response(200, Token(c.sign(Claims(user.id, username.value))))
      else Response(403, Error(WrongPassword))
  }

  /** `GET /shortcuts` (server.js:105-115): exactly the caller's rows. */
  function GetShortcuts(s: Store, uid: int): (r: Response)
    ensures r.status == 200 && r.body.Rows?
    ensures forall k :: k in r.body.rows <==> k in s.shortcuts && s.shortcuts[k].owner == uid
    ensures forall k :: k in r.body.rows ==> r.body.rows[k] == s.shortcuts[k]
  {
    Response(200, Rows(Owned(s, uid)))
  }

  /** `POST /shortcuts` (server.js:118-131): one row owned by the caller,
      under a fresh id above every id used before, answered with 201 and
      that id; every existing row stays as it was. A missing name violates
      NOT NULL, the insert fails with 500 and nothing changes. */
  function PostShortcut(s: Store, uid: int, f: Fields): (r: (Response, Store))
    ensures f.name.None? ==> r == (Response(500, InternalError), s)
    ensures f.name.Some? ==>
      var id := s.lastShortcutId + 1;
      && r.0 == Response(201, NewId(id))
      && (Valid(s) ==> forall k :: k in s.shortcuts ==> k < id)
      && r.1.shortcuts.Keys == s.shortcuts.Keys + {id}
      && r.1.shortcuts[id] == Shortcut(uid, f.name.value, f.icon, f.x, f.y)
      && r.1.lastShortcutId == id
      && (Valid(s) ==> forall k :: k in s.shortcuts ==> r.1.shortcuts[k] == s.shortcuts[k])
      && r.1.users == s.users && r.1.lastUserId == s.lastUserId
    ensures Valid(s) ==> Valid(r.1)
  {
    match f.name
    case None => (Response(500, InternalError), s)
    case Some(name) =>
      var id := s.lastShortcutId + 1;
      (Response(201, NewId(id)),
       s.(shortcuts := s.shortcuts[id := Shortcut(uid, name, f.icon, f.x, f.y)], lastShortcutId := id))
  }

  /** `PUT /shortcuts/:id` (server.js:133-149): the UPDATE filters on both
      the row id and the caller. No such row: zero rows change and 404.
      Such a row but no name: NOT NULL fails, 500. Otherwise that one row
      gets the new name, icon and position and nothing else changes. */
  function PutShortcut(s: Store, uid: int, rowId: int, f: Fields): (r: (Response, Store))
    ensures r.0.status == 404 <==> !(rowId in s.shortcuts && s.shortcuts[rowId].owner == uid)
    ensures r.0.status == 404 ==> r.0.body == Error(ShortcutNotFound)
    ensures r.0.status == 500 <==> rowId in s.shortcuts && s.shortcuts[rowId].owner == uid && f.name.None?
    ensures rowId in s.shortcuts && s.shortcuts[rowId].owner == uid && f.name.Some? ==> r.0.status == 200
    ensures r.0.status != 200 ==> r.1 == s
    ensures r.0.status == 200 ==>
      && r.0.body == Message(ShortcutUpdated)
      && r.1.shortcuts.Keys == s.shortcuts.Keys
      && r.1.shortcuts[rowId] == Shortcut(uid, f.name.value, f.icon, f.x, f.y)
      && (forall k :: k in s.shortcuts && k != rowId ==> r.1.shortcuts[k] == s.shortcuts[k])
      && r.1.users == s.users && r.1.lastUserId == s.lastUserId && r.1.lastShortcutId == s.lastShortcutId
    ensures Valid(s) ==> Valid(r.1)
  {
    if !(rowId in s.shortcuts && s.shortcuts[rowId].owner == uid) then
      (Response(404, Error(ShortcutNotFound)), s)
    else
      match f.name
      case None => (Response(500, InternalError), s)
      case Some(name) =>
        (Response(200, Message(ShortcutUpdated)),
         s.(shortcuts := s.shortcuts[rowId := Shortcut(uid, name, f.icon, f.x, f.y)]))
  }

  /** `DELETE /shortcuts/:id` (server.js:151-165): removes the row only if
      it has that id and belongs to the caller; otherwise 404 and nothing
      changes. */
  function DeleteShortcut(s: Store, uid: int, rowId: int): (r: (Response, Store))
    ensures r.0.status == 404 <==> !(rowId in s.shortcuts && s.shortcuts[rowId].owner == uid)
    ensures r.0.status == 404 ==> r == (Response(404, Error(ShortcutNotFound)), s)
    ensures r.0.status != 404 ==>
      && r.0 == Response(200, Message(ShortcutRemoved))
      && r.1.shortcuts.Keys == s.shortcuts.Keys - {rowId}
      && (forall k :: k in r.1.shortcuts ==> r.1.shortcuts[k] == s.shortcuts[k])
      && r.1.users == s.users && r.1.lastUserId == s.lastUserId && r.1.lastShortcutId == s.lastShortcutId
    ensures Valid(s) ==> Valid(r.1)
  {
    if !(rowId in s.shortcuts && s.shortcuts[rowId].owner == uid) then
      (Response(404, Error(ShortcutNotFound)), s)
    else
      (Response(200, Message(ShortcutRemoved)), s.(shortcuts := s.shortcuts - {rowId}))
  }

  /** The four routes behind `authenticateToken`. */
  predicate IsShortcutRoute(req: Request)
  {
    !req.Register? && !req.Login?
  }

  /** A shortcut route served as user `uid`, the decoded `req.user.id`. */
  function Serve(s: Store, req: Request, uid: int): (r: (Response, Store))
    requires IsShortcutRoute(req)
    ensures Valid(s) ==> Valid(r.1)
  {
    match req
    case List(_) => (GetShortcuts(s, uid), s)
    case Create(_, f) => PostShortcut(s, uid, f)
    case Update(_, rowId, f) => PutShortcut(s, uid, rowId, f)
    case Remove(_, rowId) => DeleteShortcut(s, uid, rowId)
  }

  /** The server: the shortcut routes sit behind `authenticateToken`
      (server.js:105, 118, 133, 151) and act as the decoded identity. */
  function Handle(s: Store, req: Request, c: Crypto): (r: (Response, Store))
    ensures Valid(s) ==> Valid(r.1)
  {
    match req
    case Register(username, password, hashed) => PostRegister(s, username, password, hashed)
    case Login(username, password) => (PostLogin(s, username, password, c), s)
    case _ =>
      match Authenticate(req.authorization, c.verify)
      case Unauthorized => (Response(401, NoBody), s)
      case Forbidden => (Response(403, NoBody), s)
      case Authorized(who) => Serve(s, req, who.id)
  }

  /** A shortcut request the middleware lets through is served as exactly
      the identity its token decodes to. */
  lemma HandleActsAsCaller(s: Store, req: Request, c: Crypto, who: Claims)
    requires IsShortcutRoute(req)
    requires Authenticate(req.authorization, c.verify) == Authorized(who)
    ensures Handle(s, req, c) == Serve(s, req, who.id)
  {
  }

  /** A shortcut request without a usable token, or with one `verify`
      rejects, is answered 401 or 403 and changes nothing. */
  lemma RefusedRequestsChangeNothing(s: Store, req: Request, c: Crypto)
    requires IsShortcutRoute(req)
    requires !Authenticate(req.authorization, c.verify).Authorized?
    ensures Handle(s, req, c).1 == s
    ensures Handle(s, req, c).0.status == DeniedStatus(Authenticate(req.authorization, c.verify))
  {
  }

  /** Ownership isolation: whatever a request authenticated as user A
      does, every row owned by another user is still there, unchanged, and
      no row owned by another user appears; a listing shows only A's rows;
      the users table is untouched. */
  lemma OwnershipIsolation(s: Store, req: Request, uid: int)
    requires Valid(s) && IsShortcutRoute(req)
    ensures Others(Serve(s, req, uid).1, uid) == Others(s, uid)
    ensures Serve(s, req, uid).0.body.Rows? ==> Serve(s, req, uid).0.body.rows == Owned(s, uid)
    ensures Serve(s, req, uid).1.users == s.users
  {
    var s' := Serve(s, req, uid).1;
    match req
    case List(_) =>
    case Create(_, f) =>
      if f.name.Some? {
        var id := s.lastShortcutId + 1;
        assert forall k :: k in s'.shortcuts && k != id ==> k in s.shortcuts && s'.shortcuts[k] == s.shortcuts[k];
        assert s'.shortcuts[id].owner == uid;
      }
    case Update(_, rowId, f) =>
    case Remove(_, rowId) =>
  }

  /** Writing a row of user `uid` changes `uid`'s rows by that write. */
  lemma OwnedAfterWrite(s: Store, uid: int, k: int, row: Shortcut)
    requires row.owner == uid
    ensures Owned(s.(shortcuts := s.shortcuts[k := row]), uid) == Owned(s, uid)[k := row]
  {
  }

  /** Deleting row `k` removes it from its owner's rows and nothing else. */
  lemma OwnedAfterDelete(s: Store, uid: int, k: int)
    ensures Owned(s.(shortcuts := s.shortcuts - {k}), uid) == Owned(s, uid) - {k}
  {
  }

  /** Non-interference: what a request authenticated as A is answered,
      and what it leaves of A's rows, depend only on A's rows and the id
      counter, never on other users' rows. */
  lemma OthersRowsAreInvisible(s1: Store, s2: Store, req: Request, uid: int)
    requires IsShortcutRoute(req)
    requires Owned(s1, uid) == Owned(s2, uid)
    requires s1.lastShortcutId == s2.lastShortcutId
    ensures Serve(s1, req, uid).0 == Serve(s2, req, uid).0
    ensures Owned(Serve(s1, req, uid).1, uid) == Owned(Serve(s2, req, uid).1, uid)
  {
    match req
    case List(_) =>
    case Create(_, f) =>
      if f.name.Some? {
        var id := s1.lastShortcutId + 1;
        var row := Shortcut(uid, f.name.value, f.icon, f.x, f.y);
        OwnedAfterWrite(s1, uid, id, row);
        OwnedAfterWrite(s2, uid, id, row);
      }
    case Update(_, rowId, f) =>
      assert rowId in Owned(s1, uid) <==> rowId in s1.shortcuts && s1.shortcuts[rowId].owner == uid;
      assert rowId in Owned(s2, uid) <==> rowId in s2.shortcuts && s2.shortcuts[rowId].owner == uid;
      if rowId in Owned(s1, uid) && f.name.Some? {
        var row := Shortcut(uid, f.name.value, f.icon, f.x, f.y);
        OwnedAfterWrite(s1, uid, rowId, row);
        OwnedAfterWrite(s2, uid, rowId, row);
      }
    case Remove(_, rowId) =>
      assert rowId in Owned(s1, uid) <==> rowId in s1.shortcuts && s1.shortcuts[rowId].owner == uid;
      assert rowId in Owned(s2, uid) <==> rowId in s2.shortcuts && s2.shortcuts[rowId].owner == uid;
      if rowId in Owned(s1, uid) {
        OwnedAfterDelete(s1, uid, rowId);
        OwnedAfterDelete(s2, uid, rowId);
      }
  }

  /** Logging in hands out a token that, sent back as `Bearer <token>`,
      authenticates the request as exactly the user who logged in,
      provided JWT verification accepts what JWT signing produced and the
      token holds no space (a JWT is base64url text joined by dots). */
  lemma LoginThenAuthenticate(s: Store, username: string, password: string, c: Crypto)
    requires username in s.users
    requires c.compare(password, s.users[username].passwordHash)
    requires var who := Claims(s.users[username].id, username);
      c.verify(c.sign(who)) == Some(who) && c.sign(who) != [] && ' ' !in c.sign(who)
    ensures var who := Claims(s.users[username].id, username);
      && PostLogin(s, Some(username), Some(password), c) == Response(200, Token(c.sign(who)))
      && Authenticate(Some("Bearer " + c.sign(who)), c.verify) == Authorized(who)
  {
    BearerRoundTrip(c.sign(Claims(s.users[username].id, username)));
  }

  /** Registering a new name and logging in with the same password (the
      bcrypt comparison accepting it against the stored hash) yields a token
      for the freshly created id; registering the same name again gives
      400 and changes nothing. */
  lemma RegisterThenLogin(s: Store, username: string, password: string, hashed: string, c: Crypto)
    requires Valid(s) && username !in s.users
    requires c.compare(password, hashed)
    ensures var (resp, s') := PostRegister(s, Some(username), Some(password), hashed);
      && resp == Response(201, NewId(s.lastUserId + 1))
      && PostLogin(s', Some(username), Some(password), c)
           == Response(200, Token(c.sign(Claims(s.lastUserId + 1, username))))
      && PostRegister(s', Some(username), Some(password), hashed) == (Response(400, Error(UsernameTaken)), s')
  {
  }
}

=== FILE: text.dfy ===
/** The little string handling the desktop and the server rely on:
    JavaScript's `String.prototype.includes` and the first two fields of
    `String.prototype.split` with a one-character separator. */
module Text {
  import opened Maybe

  predicate IsPrefix(p: string, s: string)
  {
    |p| <= |s| && s[..|p|] == p
  }

  /** `sub` occurs in `s` starting at position `i`. */
  predicate OccursAt(s: string, sub: string, i: int)
  {
    0 <= i <= |s| - |sub| && s[i..i + |sub|] == sub
  }

  /** `s.includes(sub)`: `sub` occurs somewhere in `s`. The empty string
      occurs in every string, a string occurs in itself and in anything it
      starts, and nothing occurs in a shorter string. */
  function Contains(s: string, sub: string): (r: bool)
    ensures sub == [] ==> r
    ensures IsPrefix(sub, s) ==> r
    ensures r ==> |sub| <= |s|
  {
    assert IsPrefix(sub, s) ==> OccursAt(s, sub, 0);
    exists i :: 0 <= i <= |s| - |sub| && OccursAt(s, sub, i)
  }

  /** `s.split(sep)[0]`: everything before the first `sep`, or all of `s`
      when `sep` does not occur. The three ensures pin the result down
      uniquely (see `FirstFieldUnique`). */
  function FirstField(s: string, sep: char): (r: string)
    ensures sep !in r
    ensures IsPrefix(r, s)
    ensures |r| == |s| || s[|r|] == sep
  {
    if |s| == 0 || s[0] == sep then "" else [s[0]] + FirstField(s[1..], sep)
  }

  /** Any separator-free prefix that stops at a separator or at the end is
      the first field. */
  lemma FirstFieldUnique(s: string, sep: char, p: string)
    requires sep !in p && IsPrefix(p, s)
    requires |p| == |s| || s[|p|] == sep
    ensures FirstField(s, sep) == p
  {
  }

  /** Joining a separator-free `a` to anything with `sep` splits back to `a`. */
  lemma FirstFieldOfJoin(a: string, sep: char, b: string)
    requires sep !in a
    ensures FirstField(a + [sep] + b, sep) == a
  {
    var s := a + [sep] + b;
    assert s[..|a|] == a;
    FirstFieldUnique(s, sep, a);
  }

  /** `s.split(sep)[1]`: the text between the first `sep` and the next one
      (or the end), and `None` (JavaScript's `undefined`) when `sep` does
      not occur at all. */
  function SecondField(s: string, sep: char): (r: Option<string>)
    ensures r.None? <==> sep !in s
    ensures r.Some? ==> sep !in r.value
  {
    var head := FirstField(s, sep);
    if |head| == |s| then None
    else Some(FirstField(s[|head| + 1..], sep))
  }

  /** The second field of `a + sep + t + rest` is `t` whenever `a` and `t`
      hold no separator and `rest` is empty or starts at a separator:
      together with `SecondField`'s own `None` case this covers every
      string. */
  lemma SecondFieldOfJoin(a: string, sep: char, t: string, rest: string)
    requires sep !in a && sep !in t
    requires rest == [] || rest[0] == sep
    ensures SecondField(a + [sep] + t + rest, sep) == Some(t)
  {
    var s := a + [sep] + t + rest;
    assert s == a + [sep] + (t + rest);
    FirstFieldOfJoin(a, sep, t + rest);
    var tail := s[|a| + 1..];
    assert tail == t + rest;
    assert tail[..|t|] == t;
    FirstFieldUnique(tail, sep, t);
  }
}

=== FILE: windows.dfy ===
/** The window table of the browser desktop (script.js:1-49): a fixed set of
    declared windows, the global stacking counter `windowZIndex`, the list
    `activeWindows` of open windows, and the taskbar icons the windows
    reveal and hide. The DOM is a map from window id to the few attributes
    the desktop reads and writes. */
module Windows {
  import opened Maybe
  import Text

  type WindowId = string

  /** The starting value of the stacking counter (script.js:4). */
  const InitialZ: int := 100

  /** The windows the desktop makes draggable at start-up (script.js:155). */
  const DeclaredWindows: seq<WindowId> :=
    ["word-window", "explorer-window", "chrome-window", "vscode-window", "spotify-window"]

  /** What the desktop touches on one window element: the `hidden` class,
      the inline z-index (None until the first `++windowZIndex` is written
      to it; the stylesheet decides before that) and the top/left offsets
      in pixels. */
  datatype Win = Win(hidden: bool, zIndex: Option<int>, top: int, left: int)

  /** The pointer drag in progress: `document.onmousemove` is bound to the
      drag closure of window `id`, whose `pos3`/`pos4` hold the pointer
      position seen last. */
  datatype DragState = Idle | Dragging(id: WindowId, lastX: int, lastY: int)

  /** The whole desktop: declared windows, taskbar icons (icon id to
      whether it carries `hidden`), `activeWindows`, `windowZIndex` and the
      drag in progress. */
  datatype Desktop = Desktop(
    windows: map<WindowId, Win>,
    taskbar: map<string, bool>,
    active: seq<WindowId>,
    counter: int,
    drag: DragState)

  predicate NoDuplicates<T(==)>(s: seq<T>)
  {
    forall i, j :: 0 <= i < j < |s| ==> s[i] != s[j]
  }

  /** No two windows carry the same inline z-index. */
  predicate DistinctZ(ws: map<WindowId, Win>)
  {
    forall a, b ::
      a in ws && b in ws && a != b && ws[a].zIndex.Some? && ws[b].zIndex.Some?
      ==> ws[a].zIndex.value != ws[b].zIndex.value
  }

  /** What every reachable desktop satisfies: the counter never went below
      its start, every inline z-index came from the counter (so it lies in
      (InitialZ, counter]) and no two are equal, `activeWindows` lists
      declared windows without repetition and exactly the visible ones,
      every visible window carries an inline z-index (it was shown by
      `openWindow`, which writes one), and a drag in progress concerns a
      declared window. */
  predicate Valid(d: Desktop)
  {
    && d.counter >= InitialZ
    && (forall id :: id in d.windows && d.windows[id].zIndex.Some? ==>
          InitialZ < d.windows[id].zIndex.value <= d.counter)
    && DistinctZ(d.windows)
    && NoDuplicates(d.active)
    && (forall x :: x in d.active ==> x in d.windows)
    && (forall id :: id in d.windows ==> (id in d.active <==> !d.windows[id].hidden))
    && (forall id :: id in d.windows && !d.windows[id].hidden ==> d.windows[id].zIndex.Some?)
    && (d.drag.Dragging? ==> d.drag.id in d.windows)
  }

  /** Window `id` is in front: it holds the counter's current value and
      every other window with an inline z-index lies strictly below it. */
  predicate IsFront(d: Desktop, id: WindowId)
  {
    && id in d.windows
    && d.windows[id].zIndex == Some(d.counter)
    && forall o :: o in d.windows && o != id && d.windows[o].zIndex.Some? ==>
         d.windows[o].zIndex.value < d.counter
  }

  /** The desktop as the page loads it: every window hidden at the offsets
      the stylesheet gives it, every taskbar icon hidden, nothing active,
      the counter at its start and no drag. */
  function Initial(placement: map<WindowId, (int, int)>, icons: set<string>): (d: Desktop)
    ensures Valid(d)
    ensures d.windows.Keys == placement.Keys && d.active == []
  {
    Desktop(
      map id | id in placement :: Win(true, None, placement[id].0, placement[id].1),
      map i | i in icons :: true,
      [], InitialZ, Idle)
  }

  /** The suffix every taskbar icon id ends with. */
  const IconSuffix: string := "-taskbar-icon"

  /** The taskbar icon of a window: the window id up to its first `-`,
      followed by `-taskbar-icon` (script.js:22, 37). The stem before the
      suffix is a `-`-free prefix of the window id that ends at the id's
      first `-` or at its end. */
  function TaskbarIconId(id: WindowId): (r: string)
    ensures |r| >= |IconSuffix| && r[|r| - |IconSuffix|..] == IconSuffix
    ensures '-' !in r[..|r| - |IconSuffix|] && Text.IsPrefix(r[..|r| - |IconSuffix|], id)
    ensures |r| - |IconSuffix| == |id| || id[|r| - |IconSuffix|] == '-'
  {
    var stem := Text.FirstField(id, '-');
    assert (stem + IconSuffix)[..|stem|] == stem;
    stem + IconSuffix
  }

  /** A window id `p-rest` whose prefix `p` has no `-` shows icon
      `p-taskbar-icon`; a window id without any `-` shows
      `id-taskbar-icon`. */
  lemma TaskbarIconOfPrefix(p: string, rest: string)
    requires '-' !in p
    ensures TaskbarIconId(p + "-" + rest) == p + "-taskbar-icon"
    ensures TaskbarIconId(p) == p + "-taskbar-icon"
  {
    Text.FirstFieldOfJoin(p, '-', rest);
    Text.FirstFieldUnique(p, '-', p);
  }

  /** `chrome-window` shows the icon `chrome-taskbar-icon`. */
  lemma ChromeTaskbarIcon()
    ensures TaskbarIconId("chrome-window") == "chrome-taskbar-icon"
  {
    ChromeIdSplits();
    TaskbarIconOfPrefix("chrome", "window");
  }

  /** The two string joins the `chrome-window` example relies on. */
  lemma ChromeIdSplits()
    ensures "chrome" + "-" + "window" == "chrome-window"
    ensures "chrome" + "-taskbar-icon" == "chrome-taskbar-icon"
  {
  }

  /** Sets the `hidden` flag of the window's taskbar icon when the page has
      one (`getElementById` may return null, script.js:23, 38). */
  function SetIconHidden(taskbar: map<string, bool>, id: WindowId, hidden: bool): (r: map<string, bool>)
    ensures r.Keys == taskbar.Keys
    ensures forall i :: i in r ==> r[i] == if i == TaskbarIconId(id) then hidden else taskbar[i]
  {
    var icon := TaskbarIconId(id);
    if icon in taskbar then taskbar[icon := hidden] else taskbar
  }

  /** `activeWindows.filter(x => x !== id)`. */
  function Without(s: seq<WindowId>, x: WindowId): (r: seq<WindowId>)
    ensures forall y :: y in r <==> y in s && y != x
    ensures NoDuplicates(s) ==> NoDuplicates(r)
    ensures |r| <= |s|
  {
    if |s| == 0 then []
    else if s[0] == x then Without(s[1..], x)
    else
      var tail := Without(s[1..], x);
      assert NoDuplicates(s) ==> s[0] !in s[1..];
      [s[0]] + tail
  }

  /** The filter keeps the other ids in their order: on a list without
      repetition it cuts exactly the one occurrence of `x` out. */
  lemma {:induction false} WithoutCutsOne(s: seq<WindowId>, x: WindowId, i: int)
    requires NoDuplicates(s) && 0 <= i < |s| && s[i] == x
    ensures Without(s, x) == s[..i] + s[i + 1..]
  {
    if i == 0 {
      WithoutAbsent(s[1..], x);
      assert s[1..] == s[..0] + s[1..];
    } else {
      assert NoDuplicates(s[1..]) by {
        forall a, b | 0 <= a < b < |s[1..]| ensures s[1..][a] != s[1..][b] {
          assert s[1..][a] == s[a + 1] && s[1..][b] == s[b + 1];
        }
      }
      WithoutCutsOne(s[1..], x, i - 1);
      assert s[0] != x;
      assert s[1..][..i - 1] + s[1..][i..] == s[1..i] + s[i + 1..];
      assert [s[0]] + (s[1..i] + s[i + 1..]) == s[..i] + s[i + 1..];
    }
  }

  /** Filtering out an absent id changes nothing. */
  lemma {:induction false} WithoutAbsent(s: seq<WindowId>, x: WindowId)
    requires x !in s
    ensures Without(s, x) == s
  {
    if |s| > 0 {
      assert x !in s[1..];
      WithoutAbsent(s[1..], x);
      assert [s[0]] + s[1..] == s;
    }
  }

  /** `bringToFront` (script.js:46-49): the window takes `++windowZIndex`
      and so moves in front of every other window; nothing else changes. */
  function BringToFront(d: Desktop, id: WindowId): (r: Desktop)
    requires id in d.windows
    ensures r.counter == d.counter + 1
    ensures r.windows.Keys == d.windows.Keys
    ensures r.windows[id] == d.windows[id].(zIndex := Some(r.counter))
    ensures forall o :: o in d.windows && o != id ==> r.windows[o] == d.windows[o]
    ensures r.active == d.active && r.taskbar == d.taskbar && r.drag == d.drag
    ensures Valid(d) ==> Valid(r) && IsFront(r, id)
  {
    var z := d.counter + 1;
    d.(windows := d.windows[id := d.windows[id].(zIndex := Some(z))], counter := z)
  }

  /** `openWindow` (script.js:15-31): the window loses `hidden`, takes
      `++windowZIndex`, its taskbar icon (if any) is revealed, and its id is
      appended to `activeWindows` only when absent, so re-opening an open
      window leaves the list as it was but still raises the window. */
  function OpenWindow(d: Desktop, id: WindowId): (r: Desktop)
    requires id in d.windows
    ensures r.counter == d.counter + 1
    ensures r.windows.Keys == d.windows.Keys
    ensures r.windows[id] == d.windows[id].(hidden := false, zIndex := Some(r.counter))
    ensures forall o :: o in d.windows && o != id ==> r.windows[o] == d.windows[o]
    ensures r.taskbar == SetIconHidden(d.taskbar, id, false)
    ensures forall x :: x in r.active <==> x in d.active || x == id
    ensures id in d.active ==> r.active == d.active
    ensures id !in d.active ==> r.active == d.active + [id]
    ensures NoDuplicates(d.active) ==> NoDuplicates(r.active)
    ensures r.drag == d.drag
    ensures Valid(d) ==> Valid(r) && IsFront(r, id)
  {
    var z := d.counter + 1;
    d.(windows := d.windows[id := d.windows[id].(hidden := false, zIndex := Some(z))],
       counter := z,
       taskbar := SetIconHidden(d.taskbar, id, false),
       active := if id in d.active then d.active else d.active + [id])
  }

  /** `closeWindow` (script.js:33-44): the window gets `hidden`, its
      taskbar icon (if any) is hidden, and its id leaves `activeWindows`;
      no window's z-index or offsets change, and neither does the counter. */
  function CloseWindow(d: Desktop, id: WindowId): (r: Desktop)
    requires id in d.windows
    ensures r.counter == d.counter
    ensures r.windows.Keys == d.windows.Keys
    ensures r.windows[id] == d.windows[id].(hidden := true)
    ensures forall o :: o in d.windows && o != id ==> r.windows[o] == d.windows[o]
    ensures forall o :: o in d.windows ==>
      r.windows[o].zIndex == d.windows[o].zIndex &&
      r.windows[o].top == d.windows[o].top && r.windows[o].left == d.windows[o].left
    ensures r.taskbar == SetIconHidden(d.taskbar, id, true)
    ensures forall x :: x in r.active <==> x in d.active && x != id
    ensures r.active == Without(d.active, id)
    ensures r.drag == d.drag
    ensures Valid(d) ==> Valid(r)
  {
    d.(windows := d.windows[id := d.windows[id].(hidden := true)],
       taskbar := SetIconHidden(d.taskbar, id, true),
       active := Without(d.active, id))
  }

  /** Closing keeps the other open windows in their order: on a valid
      desktop where `id` is open at position `i`, `activeWindows` loses
      exactly that entry; where it is closed already, the list stays. */
  lemma CloseKeepsOrder(d: Desktop, id: WindowId)
    requires Valid(d) && id in d.windows
    ensures forall i :: 0 <= i < |d.active| && d.active[i] == id ==>
      CloseWindow(d, id).active == d.active[..i] + d.active[i + 1..]
    ensures id !in d.active ==> CloseWindow(d, id).active == d.active
  {
    forall i | 0 <= i < |d.active| && d.active[i] == id
      ensures CloseWindow(d, id).active == d.active[..i] + d.active[i + 1..]
    {
      WithoutCutsOne(d.active, id, i);
    }
    if id !in d.active {
      WithoutAbsent(d.active, id);
    }
  }
}
